=== FILE: README.md ===
# Lokalise document-preview edge worker — Dafny model

A model of the logic inside the edge worker that sits between a browser
extension and the Lokalise translation-management API. The worker itself is
mostly network glue; what is left once the network is treated as an input is
modelled here:

- **Error taxonomy** (`Errors`): the error classes as one datatype,
  `throwAnError` (upstream HTTP status → `{code, message}`) and
  `respondWithError` (error → status line, no body, JSON Content-type). The
  unknown-status message embeds the status in decimal (`Decimal`), and the
  model proves the status can be read back from it.
- **Upstream reply classification** (`Upstream`): transport failure →
  `ErrorCantReachExternalApi`, non-2xx → `throwAnError`, a 2xx body that is
  not JSON → the generic worker error, otherwise the payload.
- **Archive extraction** (`Archive`): `extractFileFromBundle` as a decision
  over a download outcome (`DownloadFailed | Downloaded(bytes)`) and a
  decompressor outcome (`Corrupt | Entries(seq<Entry>)`), plus the preview
  Content-Type rule.
- **Comment aggregation** (`Comments`): distinct key ids in first-seen order,
  the key-paging loop as a step function run with a fuel bound, the
  last-write-wins key table, and grouping of comments by key id.
- **CORS `OPTIONS` answer** (`Options`).
- **Dispatch** in its two versions: `routeRequest` (`Router`) returns
  controller promises without `await`, so a failing controller makes the
  request reject and `respondWithError` is never reached. `handleRequest`
  (`Handler`) awaits inside its `try`, so every failure becomes an error
  response. `RouterAndHandlerDiffer` states exactly where they differ.

`src/handler.ts` carries verbatim copies of `respondWithError`,
`throwAnError`, the error classes, `extractFileFromBundle` and the options
logic. The two `extractFileFromBundle` controllers are also identical. Each
is defined once here, and the rows below cite the copy each lemma is
about. As a result, the local `respondWithError`/`throwAnError` of
`src/handler.ts` have the same tables as those of `src/errors.ts` by
construction.

The model follows the code; note that:
- only `/get-lang-iso` and `/fetch-preview` are dispatched; `/fetch-preview-html`,
  `/fetch-preview-docx` and `/fetch-project-comments` get 404;
- a non-HTML preview gets Content-type `''` from the router's controller and
  keeps `application/json` in `handleRequest`; it is never left unset;
- a plain (non-preflight) `OPTIONS` answer carries no
  `Access-Control-Allow-Origin`;
- the key list is ordered by first occurrence (a JavaScript `Set`).

The upstream API, the archive download and the decompressor are inputs of
the model (`Controllers.World`, `Comments.KeysFetcher`, `Upstream.Reply`).

## Model

| member | source | states |
|---|---|---|
| Errors.ThrowAnError | src/errors.ts:41-71 | statuses 400, 401, 403, 404 and 429 keep their code with their fixed message; every other status gives code 502 with the message naming the status; the code is always in {400, 401, 403, 404, 429, 502} |
| Errors.UnknownStatusMessageEmbedsStatus | src/errors.ts:66-68 | the default message is "Error code " + status + " was returned from Lokalise API." and the status parses back out of it |
| Decimal.IntToStringRoundTrip | src/errors.ts:68 | the decimal rendering of a status used in the message parses back to the same number |
| Errors.ThrowAnErrorInjective | src/handler.ts:272-303 | two different upstream statuses never produce the same thrown error |
| Errors.RespondWithError | src/errors.ts:1-38 | null body; the given headers kept, Content-type set to application/json; `ErrorWithHttpCode` → its code and message; can't-reach-API → 502; download failure and empty archive → 502 with one shared text; empty extraction → 500; anything else → 500 generic text |
| Errors.UpstreamStatusResponse | src/handler.ts:200-209 | an upstream rejection reaches the caller with the upstream status exactly when that status has a dedicated message, else 502, and the status text still identifies the upstream status |
| Errors.UpstreamStatusRecoverable | src/errors.ts:41-71 | the error response to an upstream rejection determines the upstream status |
| Errors.FixedErrorResponsesDistinct | src/errors.ts:11-35 | among the fixed error classes, two give the same response iff they are the same class or are download failure and empty archive |
| Errors.ErrorResponseStatuses | src/handler.ts:200-237 | every error the worker raises is answered with a status in {400, 401, 403, 404, 429, 500, 502} |
| Upstream.Classify | src/controllers/fetch-html-preview.ts:43-59 | the payload is returned iff the reply arrived with a 2xx status and a decodable body; transport failure gives can't-reach-API; a non-2xx status gives `throwAnError` of that status whatever the body; a 2xx body that `response.json()` rejects gives the unclassified error |
| Archive.KeptEntries | src/controllers/fetch-html-preview.ts:76 | the filter keeps exactly the entries of size > 0, and its first element is the archive's first entry of non-zero size |
| Archive.ExtractFileFromBundle | src/controllers/fetch-html-preview.ts:62-84 | failed download → download error; zero-length download → empty-archive error; decompressor throws → unclassified error; otherwise success iff the first non-empty entry has a non-empty name, with that entry's data, and the empty-extraction error otherwise |
| Archive.EmptyArchiveNeverUnzipped | src/controllers/fetch-preview-html.ts:24-33 | for a failed or zero-length download the outcome does not depend on the decompressor: it is never invoked |
| Archive.AllEmptyEntriesYieldNothing | src/controllers/fetch-preview-html.ts:36-42 | an archive whose entries all have size 0 yields the empty-extraction error |
| Archive.ExtractedComesFromArchive | src/handler.ts:153-165 | a successful extraction returns the data of an entry of the archive that has non-zero size and a non-empty name |
| Archive.PreviewContentType | src/controllers/fetch-html-preview.ts:17 | the type is text/html iff fileformat is 'html', and '' otherwise |
| Comments.Distinct | src/controllers/fetch-project-comments.ts:11 | every element once, nothing else, in order of first occurrence |
| Comments.DistinctKeyIds | src/controllers/fetch-project-comments.ts:11 | the key list holds each key id referenced by some comment exactly once, in order of first occurrence |
| Comments.MergePageKeys | src/controllers/fetch-project-comments.ts:17 | after a page is merged, the table knows exactly the earlier ids and the ids of the page |
| Comments.MergePageKeepsOthers | src/controllers/fetch-project-comments.ts:17 | an entry whose id the page does not mention is left unchanged |
| Comments.MergePageLastWriteWins | src/controllers/fetch-project-comments.ts:17 | for an id of the page, the table holds the page's last record with that id: a later record overwrites an earlier one |
| Comments.PagingStep | src/controllers/fetch-project-comments.ts:15-18 | one iteration records exactly one more request and keeps the earlier ones; a failed step fails with exactly the classification of its key request's reply (can't-reach, `throwAnError` of the status, or the unclassified error), as `getProjectKeys` rejects |
| Comments.RunPaging | src/controllers/fetch-project-comments.ts:15-18 | the loop stops only once `index >= keys.length`, and is still running only while `index < keys.length`; a failed run keeps the requests made, the failing one last, and its error is exactly the classification of that last request's reply |
| Comments.AsWrittenStep | src/controllers/fetch-project-comments.ts:15-16 | as written, each iteration sets `index` to exactly 300 and asks for `keys.slice(index, 299)` |
| Comments.NoKeysNoRequests | src/controllers/fetch-project-comments.ts:15 | with no keys the body never runs: no request, empty table |
| Comments.AsWrittenSinglePage | src/controllers/fetch-project-comments.ts:15-16 | with 1 to 300 keys there is exactly one key request, for `keys[0 .. min(n, 299))`; the loop then stops, or fails with that request's error |
| Comments.AsWrittenStuckAt300 | src/controllers/fetch-project-comments.ts:15-16 | with more than 300 keys and `index` at 300 the guard stays true: the loop never finishes and only empty lists are requested, also in a run that ends in a failed request |
| Comments.AsWrittenNeverFinishes | src/controllers/fetch-project-comments.ts:15-16 | with more than 300 keys the loop never finishes from the start; its requests, including those of a run that ends in a failed request, are `keys[0..299)` followed by empty lists |
| Comments.AsWrittenSkipsKey299 | src/controllers/fetch-project-comments.ts:16 | with at least 300 distinct keys, the key at position 299 is in no request the run makes, whether it finishes, is still running, or fails |
| Comments.CorrectedPagingRequestsEveryKey | src/controllers/fetch-project-comments.ts:15-16 | with `index += 300` and `slice(index, index + 300)`, the loop finishes within ⌈n/300⌉ iterations and its requests concatenate to exactly the key list |
| Comments.GroupCommentsByKey | src/controllers/fetch-project-comments.ts:20-34 | one group per referenced key id; a group holds exactly its key's comments in input order, and its data comes from the key table, both fields undefined when the key is missing |
| Comments.EveryCommentGrouped | src/controllers/fetch-project-comments.ts:21-33 | every comment is in the group of its own key id, and a group holds only comments of its key |
| Comments.CommentCountPreserved | src/controllers/fetch-project-comments.ts:20-34 | the group sizes add up to the number of comments |
| Comments.FetchProjectComments | src/controllers/fetch-project-comments.ts:10-36 | an answer requires a successful comments reply and groups exactly its comments by key id, with each group's data taken from the table the finished loop built; a failed comments reply rejects with its classification (can't-reach for a transport failure, `throwAnError` for a non-2xx status); a failed key request rejects with that request's classification (`throwAnError` of its status, or can't-reach); a loop still running leaves the request unanswered |
| Comments.NoCommentsEmptyResult | src/controllers/fetch-project-comments.ts:15-36 | zero comments give the empty map without any key request |
| Comments.AnsweredLoopNeverFails | src/controllers/fetch-project-comments.ts:14-18 | when every key request succeeds, the paging loop never ends in a failure |
| Comments.AsWrittenNeverAnswersOver300Keys | src/controllers/fetch-project-comments.ts:15-18 | as written, comments on more than 300 distinct keys are never answered with the grouped comments: the loop runs until a key request fails, and then the request rejects with that well-formed error; while every key request succeeds it never ends |
| Comments.AsWrittenAnswersUpTo300Keys | src/controllers/fetch-project-comments.ts:11-34 | as written, comments on 1 to 300 distinct keys are grouped using the one page fetched for the first `min(n, 299)` keys |
| Options.OptionsController | src/controllers/options.ts:3-33 | null body and status 200; a preflight gets the fixed origin, methods 'GET,HEAD,POST,OPTIONS', max-age '86400' and the echoed headers; otherwise only `Allow: GET, HEAD, POST, OPTIONS` |
| Options.PreflightIffAllowOrigin | src/controllers/options.ts:7-16 | the origin is granted iff Origin, Access-Control-Request-Method and Access-Control-Request-Headers are all present |
| Options.PreflightEchoesRequestedHeaders | src/handler.ts:172-187 | a preflight answer's Access-Control-Allow-Headers equals the request's Access-Control-Request-Headers verbatim |
| Options.PlainOptionsHasNoCorsHeaders | src/controllers/options.ts:24-32 | a non-preflight answer carries no CORS header |
| Options.OptionsDependsOnlyOnPreflightHeaders | src/controllers/options.ts:6-11 | requests that agree on the three preflight headers get the same answer |
| Controllers.FetchPreview | src/controllers/fetch-preview-html.ts:6-16 | the preview bytes are produced iff the body parses, the bundle URL resolves and extraction succeeds, and they are the extracted bytes; an unparsable body gives the unclassified error, a failed bundle reply gives its classification, and otherwise the outcome, error included, is the extraction's |
| Controllers.FetchPreviewController | src/controllers/fetch-html-preview.ts:4-19 | on success status 200, the extracted bytes, and the handed-in headers with Content-type replaced by the preview type; on failure the failing step's error, as `Controllers.FetchPreview` pins it |
| Controllers.LangIso | src/controllers/get-lang-iso.ts:3-13 | the value produced is exactly the upstream's `language.lang_iso`, and it is produced iff the body parses and the upstream answers 2xx with a decodable body; an undecodable request body gives the unclassified error, otherwise failures are the upstream reply's classification |
| Router.RouteRequest | src/router.ts:6-35 | a successful `/get-lang-iso` is answered with status 200, the base headers and `{langIso}` holding the upstream's code; a successful `/fetch-preview` with status 200 and the extracted bytes; only a non-`OPTIONS` request on a dispatched path can reject, and only with a well-formed worker error; every non-`OPTIONS` answer grants the fixed origin |
| Router.RouterOptionsFirst | src/router.ts:7-10 | `OPTIONS` on any path is answered by the options controller |
| Router.RouterNotFoundIff | src/router.ts:18-34 | the 404 "Path not found in the worker." answer is given iff the method is not `OPTIONS` and the path is neither `/get-lang-iso` nor `/fetch-preview` |
| Router.RouterLeavesFailuresUnconverted | src/router.ts:18-28 | a failing controller makes the request reject with the controller's own error: `respondWithError` is not applied |
| Router.RouterPreviewContentType | src/router.ts:14-25 | a served preview's body is the extracted bytes; it keeps the fixed origin and has Content-type text/html for HTML, '' otherwise |
| Handler.ProcessFetchPreviewCall | src/handler.ts:53-70 | succeeds iff the preview fetch does, returning its bytes and the preview type |
| Handler.HandleRequest | src/handler.ts:5-39 | a successful `/get-lang-iso` is answered with status 200, the base headers and `{langIso}` holding the upstream's code; a successful `/fetch-preview` with status 200 and the extracted bytes; every non-`OPTIONS` answer grants the fixed origin and carries a Content-type |
| Handler.HandlerOptionsFirst | src/handler.ts:6-9 | `OPTIONS` on any path is answered by the options logic |
| Handler.ErrorResponseIsNotPathNotFound | src/handler.ts:200-237 | no error the worker raises is answered with the path-not-found status text |
| Handler.HandlerNotFoundIff | src/handler.ts:17-38 | the 404 path-not-found answer is given iff the method is not `OPTIONS` and the path is not dispatched; no failure is mistaken for it |
| Handler.HandlerConvertsFailures | src/handler.ts:17-32 | every controller failure is answered with `respondWithError` of that error |
| Handler.HandlerPreviewContentType | src/handler.ts:23-28 | a served preview's body is the extracted bytes; it has Content-type text/html for HTML and keeps application/json otherwise |
| Handler.LangIsoAnswered | src/handler.ts:18-21 | both dispatchers answer a successful language lookup identically, with status 200, the base headers and `{langIso}` holding the upstream's code; the lookup succeeds iff the body decodes and the upstream answers 2xx with a decodable body |
| Handler.RouterAndHandlerDiffer | src/handler.ts:5-39 | the two dispatchers differ only in two ways: where the router rejects, the handler answers with `respondWithError`; and the Content-type of a non-HTML preview. Status, text, body and all other headers coincide, a Content-type is present in one answer iff in the other, and its value differs only for a successful non-HTML preview |

## Left out

- The network requests themselves (`getBundleUrl`, `getLangIso`, `getProjectComments`, `getProjectKeys`, `fetch`): URLs, the token header and the request bodies are I/O. Their replies are inputs, and their classification, including a 2xx body that is not JSON, is `Upstream.Classify`.
- `getLangIso` in `src/controllers/get-lang-iso.ts` and `src/helpers/getBundleUrl.ts`: the request construction is upstream plumbing, covered by the reply inputs; the controller around `getLangIso` is `Controllers.LangIso`.
- `src/controllers/fetch-preview-docx.ts`: it forwards a URL to an external conversion service and streams back its answer, which is outside this model.
- `src/index.ts`: registration of the event listener with the runtime.
- ZIP decoding by `fflate`: the decompressor is an input returning the entries in directory order, or throwing.
- Archive.ExtractFileFromBundle: assumes entry names are distinct and that the key order of the decompressor's result is directory order. With a repeated name, the object the decompressor builds would hold the last entry of that name. `Uint8Array.buffer` is taken to be exactly the entry's bytes.
- JSON: `request.json()` is modelled only as success or failure (`Params` or none), and only `fileformat` is interpreted. `JSON.stringify` output, `parseInt`/`NaN` on `langId`, and JavaScript's loose `==` on a non-string `fileformat` are not modelled.
- Comments.FetchProjectComments: the paging loop is run for at most `fuel` iterations. `Unfinished` stands for "has not terminated yet". The lemmas show that for more than 300 keys no amount of fuel ends the loop. The controller's own `request.json()` (src/controllers/fetch-project-comments.ts:4) is not modelled: the model starts from the comments reply, so an unparsable request body, which rejects with the generic error before any upstream call, has no counterpart.
- Comments.KeysFetcher: the keys endpoint is a function of the requested id list, so it answers the same list the same way every time. In the as-written loop every request after the first is the empty list, so a run of successful empty requests followed by a failing one (a 429 after a while, say) is not modelled; such a run would still only reject, as `Comments.AsWrittenNeverAnswersOver300Keys` states for the failures the model has.
- Comments: only `key_id` of a comment is interpreted; `key_name` is modelled as a string and `filenames` as a map, both opaque.
- Promise and `async` semantics, beyond whether a controller's rejection is awaited inside the `try`. A rejected request is modelled as the `Router.Rejected` outcome; what the runtime then sends the browser is not modelled.
- Header names are compared exactly, with the worker's own spelling. The runtime's case-insensitive matching and the merging of repeated request headers are not modelled.
- URL parsing: a request carries its path directly.

## Findings

| source | as written | input that shows it | evidently intended | confidence | as-written member | corrected member |
|---|---|---|---|---|---|---|
| src/controllers/fetch-project-comments.ts:15 | `index =+ keys_request_page` assigns `+300` instead of adding it | comments on 301 distinct keys: `index` is 300 after every iteration and the guard `300 < 301` stays true, so the grouped comments are never returned: the loop requests empty pages until a key request fails (the request then rejects), and runs forever while they succeed | `index += keys_request_page` | high; not executed | Comments.AsWrittenNeverFinishes | Comments.CorrectedPagingRequestsEveryKey |
| src/controllers/fetch-project-comments.ts:16 | `keys.slice(index, 300 - 1)` ends every page at position 299 | comments on 300 distinct keys: one request for positions 0..298; the key at position 299 is never asked for, so unless the keys endpoint returns keys it was not asked for, its group's data is undefined | `keys.slice(index, index + keys_request_page)` | high; not executed | Comments.AsWrittenSkipsKey299 | Comments.CorrectedPagingRequestsEveryKey |

`Comments.FetchProjectComments` takes the paging rule as a parameter. `PagingRule.AsWritten` is the loop of the source; `PagingRule.Corrected` is the fixed loop. Grouping and the key table are shared by both.

=== FILE: archive.dfy ===
/**
 * Pulling the preview file out of a downloaded bundle (`extractFileFromBundle`)
 * and choosing the Content-Type the preview is served with.
 *
 * The download and the decompressor are inputs: the download either failed or
 * produced bytes, and the decompressor either throws or lists the archive's
 * entries in directory order.
 */
module Archive {
  import opened Optional
  import opened Errors
  import opened Http

  datatype Download = DownloadFailed | Downloaded(bytes: seq<bv8>)

  /** One archive entry: its path, the size the decompressor reports to the filter, and its decompressed bytes. */
  datatype Entry = Entry(name: string, size: nat, data: seq<bv8>)

  /** The decompressor threw on the buffer, or listed its entries. */
  datatype Unzipped = Corrupt | Entries(entries: seq<Entry>)

  /** Entry `i` is the first entry of non-zero reported size. */
  ghost predicate IsFirstKept(entries: seq<Entry>, i: int) {
    && 0 <= i < |entries|
    && entries[i].size > 0
    && forall j :: 0 <= j < i ==> entries[j].size == 0
  }

  /** The decompressor's `filter: file => file.size > 0`: the entries it keeps, in order. */
  function KeptEntries(entries: seq<Entry>): (kept: seq<Entry>)
    ensures |kept| <= |entries|
    ensures forall e :: e in kept <==> e in entries && e.size > 0
    ensures |kept| > 0 <==> exists i :: IsFirstKept(entries, i)
    ensures forall i :: IsFirstKept(entries, i) ==> kept[0] == entries[i]
    decreases |entries|
  {
    if |entries| == 0 then []
    else
      var rest := KeptEntries(entries[1..]);
      if entries[0].size > 0 then
        assert IsFirstKept(entries, 0);
        [entries[0]] + rest
      else
        FirstKeptShift(entries);
        rest
  }

  /** Past a leading zero-size entry, the first kept entry is the first kept entry of the rest. */
  lemma FirstKeptShift(entries: seq<Entry>)
    requires |entries| > 0 && entries[0].size == 0
    ensures forall i :: IsFirstKept(entries[1..], i) <==> IsFirstKept(entries, i + 1)
    ensures forall i :: IsFirstKept(entries, i) ==> i > 0
  {
  }

  /**
   * The preview file's bytes. A failed download and an empty download are
   * rejected before the decompressor sees anything; then the first kept
   * entry is taken, provided its name is non-empty.
   */
  function ExtractFileFromBundle(download: Download, unzip: seq<bv8> -> Unzipped): (r: Result<seq<bv8>>)
    ensures download.DownloadFailed? ==> r == Err(DuringDownloadingPreviewArchive)
    ensures download == Downloaded([]) ==> r == Err(EmptyPreviewArchive)
    ensures download.Downloaded? && |download.bytes| > 0 && unzip(download.bytes).Corrupt? ==>
              r == Err(Unclassified)
    ensures download.Downloaded? && |download.bytes| > 0 && unzip(download.bytes).Entries? ==>
              var es := unzip(download.bytes).entries;
              && (r.Ok? <==> exists i :: IsFirstKept(es, i) && es[i].name != "")
              && (forall i :: IsFirstKept(es, i) && r.Ok? ==> r.value == es[i].data)
              && (r.Err? ==> r.error == EmptyPreviewExtracted)
    ensures r.Err? ==> WellFormed(r.error)
  {
    match download
    case DownloadFailed => Err(DuringDownloadingPreviewArchive)
    case Downloaded(archive) =>
      if |archive| == 0 then Err(EmptyPreviewArchive)
      else
        match unzip(archive)
        case Corrupt => Err(Unclassified)
        case Entries(entries) =>
          var kept := KeptEntries(entries);
          if |kept| > 0 && kept[0].name != "" then Ok(kept[0].data) else Err(EmptyPreviewExtracted)
  }

  /** The decompressor is never consulted on an empty download: the outcome does not depend on it. */
  lemma EmptyArchiveNeverUnzipped(u1: seq<bv8> -> Unzipped, u2: seq<bv8> -> Unzipped)
    ensures ExtractFileFromBundle(Downloaded([]), u1) == ExtractFileFromBundle(Downloaded([]), u2)
    ensures ExtractFileFromBundle(DownloadFailed, u1) == ExtractFileFromBundle(DownloadFailed, u2)
  {
  }

  /** An archive whose every entry has size zero yields nothing to preview. */
  lemma AllEmptyEntriesYieldNothing(bytes: seq<bv8>, unzip: seq<bv8> -> Unzipped)
    requires |bytes| > 0 && unzip(bytes).Entries?
    requires forall e :: e in unzip(bytes).entries ==> e.size == 0
    ensures ExtractFileFromBundle(Downloaded(bytes), unzip) == Err(EmptyPreviewExtracted)
  {
  }

  /** A successful extraction returns the bytes of some kept, named entry of the archive. */
  lemma ExtractedComesFromArchive(bytes: seq<bv8>, unzip: seq<bv8> -> Unzipped)
    requires ExtractFileFromBundle(Downloaded(bytes), unzip).Ok?
    ensures |bytes| > 0 && unzip(bytes).Entries?
    ensures exists e :: e in unzip(bytes).entries && e.size > 0 && e.name != "" &&
                        e.data == ExtractFileFromBundle(Downloaded(bytes), unzip).value
  {
  }

  /**
   * `params.fileformat == 'html' ? 'text/html' : ''`: the preview is labelled
   * HTML exactly when HTML was asked for, and carries an empty type otherwise.
   */
  function PreviewContentType(fileformat: Option<string>): (ct: string)
    ensures ct == TextHtml <==> fileformat == Some("html")
    ensures ct != TextHtml ==> ct == ""
  {
    if fileformat == Some("html") then TextHtml else ""
  }
}

=== FILE: comments.dfy ===
/**
 * The comment aggregator (`fetchProjectComments`): collect the distinct key
 * ids the comments refer to, fetch those keys page by page into a lookup
 * table, then group the comments by key id, each group carrying its key's
 * name and filenames.
 *
 * The paging loop is modelled as a step function run for a bounded number of
 * iterations (`fuel`), because as written it does not terminate for more than
 * 300 distinct keys. `PagingRule.AsWritten` is the loop of the source;
 * `PagingRule.Corrected` is the loop it evidently meant.
 */
module Comments {
  import opened Optional
  import opened Errors
  import opened Upstream

  type KeyId = int

  /** A comment; only `keyId` is interpreted, the other fields are carried along. */
  datatype Comment = Comment(commentId: int, keyId: KeyId, comment: string)

  /** A key record as the keys endpoint returns it. */
  datatype Key = Key(keyId: KeyId, keyName: string, filenames: map<string, string>)

  /** A group's `data`: both fields are `undefined` when the key was never fetched. */
  datatype KeyData = KeyData(keyName: Option<string>, filenames: Option<map<string, string>>)

  datatype CommentGroup = CommentGroup(data: KeyData, comments: seq<Comment>)

  type KeyTable = map<KeyId, Key>

  // ---------------------------------------------------------------------------
  // Distinct key ids (`[...new Set(comments.map(c => c.key_id))]`)
  // ---------------------------------------------------------------------------

  predicate NoDuplicates<T(==)>(s: seq<T>) {
    forall i, j :: 0 <= i < j < |s| ==> s[i] != s[j]
  }

  /** The position of the first occurrence of `x` in `s`, or `|s|` when there is none. */
  function FirstIndex<T(==)>(s: seq<T>, x: T): (i: nat)
    ensures i <= |s|
    ensures i < |s| <==> x in s
    ensures i < |s| ==> s[i] == x
    ensures forall j :: 0 <= j < i ==> s[j] != x
    decreases |s|
  {
    if |s| == 0 then 0 else if s[0] == x then 0 else 1 + FirstIndex(s[1..], x)
  }

  /** Appending never moves the first occurrence of something already present. */
  lemma FirstIndexAppend<T>(p: seq<T>, x: T)
    ensures forall y :: y in p ==> FirstIndex(p + [x], y) == FirstIndex(p, y)
    ensures x !in p ==> FirstIndex(p + [x], x) == |p|
  {
    forall y | y in p
      ensures FirstIndex(p + [x], y) == FirstIndex(p, y)
    {
      var k := FirstIndex(p, y);
      assert (p + [x])[k] == y;
    }
  }

  /**
   * The distinct elements of `s`, each once, in order of first occurrence
   * (a JavaScript `Set` keeps insertion order).
   */
  function Distinct(s: seq<KeyId>): (d: seq<KeyId>)
    ensures forall x :: x in d <==> x in s
    ensures NoDuplicates(d)
    ensures forall i, j :: 0 <= i < j < |d| ==> FirstIndex(s, d[i]) < FirstIndex(s, d[j])
    decreases |s|
  {
    if |s| == 0 then []
    else
      var p := s[..|s| - 1];
      var x := s[|s| - 1];
      assert s == p + [x];
      FirstIndexAppend(p, x);
      var d := Distinct(p);
      if x in d then d else d + [x]
  }

  function KeyIdsOf(cs: seq<Comment>): seq<KeyId> {
    seq(|cs|, i requires 0 <= i < |cs| => cs[i].keyId)
  }

  /** The key list of the aggregator: every referenced key id once, in first-seen order. */
  function DistinctKeyIds(cs: seq<Comment>): (keys: seq<KeyId>)
    ensures NoDuplicates(keys)
    ensures forall id :: id in keys <==> exists c :: c in cs && c.keyId == id
    ensures forall i, j :: 0 <= i < j < |keys| ==>
              FirstIndex(KeyIdsOf(cs), keys[i]) < FirstIndex(KeyIdsOf(cs), keys[j])
  {
    var ids := KeyIdsOf(cs);
    forall id ensures id in ids <==> exists c :: c in cs && c.keyId == id {
      if id in ids {
        var i :| 0 <= i < |ids| && ids[i] == id;
        assert cs[i] in cs;
      }
      if c :| c in cs && c.keyId == id {
        var i :| 0 <= i < |cs| && cs[i] == c;
        assert ids[i] == id;
      }
    }
    Distinct(ids)
  }

  // ---------------------------------------------------------------------------
  // The key lookup table (`keys_page.forEach(key => keys_data[key.key_id] = key)`)
  // ---------------------------------------------------------------------------

  /** No later record in `page` has the same key id as record `i`. */
  predicate IsLastWithId(page: seq<Key>, i: int)
    requires 0 <= i < |page|
  {
    forall j :: i < j < |page| ==> page[j].keyId != page[i].keyId
  }

  function IdsOfKeys(page: seq<Key>): set<KeyId> {
    set k | k in page :: k.keyId
  }

  /** Writes a page of key records into the table, in order. */
  function MergePage(table: KeyTable, page: seq<Key>): KeyTable
    decreases |page|
  {
    if |page| == 0 then table else MergePage(table[page[0].keyId := page[0]], page[1..])
  }

  /** The merged table knows exactly the earlier ids and the ids of the page. */
  lemma {:induction false} MergePageKeys(table: KeyTable, page: seq<Key>)
    ensures MergePage(table, page).Keys == table.Keys + IdsOfKeys(page)
    decreases |page|
  {
    if |page| > 0 {
      MergePageKeys(table[page[0].keyId := page[0]], page[1..]);
      assert IdsOfKeys(page) == {page[0].keyId} + IdsOfKeys(page[1..]) by {
        assert forall k :: k in page <==> k == page[0] || k in page[1..];
      }
    }
  }

  /** An entry the page does not mention is left as it was. */
  lemma {:induction false} MergePageKeepsOthers(table: KeyTable, page: seq<Key>, id: KeyId)
    requires id in table && id !in IdsOfKeys(page)
    ensures id in MergePage(table, page) && MergePage(table, page)[id] == table[id]
    decreases |page|
  {
    if |page| > 0 {
      assert page[0] in page;
      assert IdsOfKeys(page[1..]) <= IdsOfKeys(page) by {
        forall k | k in page[1..] ensures k in page { }
      }
      MergePageKeepsOthers(table[page[0].keyId := page[0]], page[1..], id);
    }
  }

  /** For an id of the page, the table holds the page's last record with that id: the last write wins. */
  lemma {:induction false} MergePageLastWriteWins(table: KeyTable, page: seq<Key>, i: int)
    requires 0 <= i < |page| && IsLastWithId(page, i)
    ensures page[i].keyId in MergePage(table, page) && MergePage(table, page)[page[i].keyId] == page[i]
    decreases |page|
  {
    var rest := page[1..];
    var table' := table[page[0].keyId := page[0]];
    if i > 0 {
      assert IsLastWithId(rest, i - 1);
      MergePageLastWriteWins(table', rest, i - 1);
    } else {
      forall k | k in rest
        ensures k.keyId != page[0].keyId
      {
        var j :| 0 <= j < |rest| && rest[j] == k;
        assert page[j + 1] == k;
      }
      MergePageKeepsOthers(table', rest, page[0].keyId);
    }
  }

  // ---------------------------------------------------------------------------
  // The paging loop
  //   for (let index = 0; index < keys.length; index =+ keys_request_page)
  //     getProjectKeys(params, keys.slice(index, 300 - 1))
  // ---------------------------------------------------------------------------

  const KeysRequestPage := 300

  /** `Array.prototype.slice`'s treatment of a bound: negative counts from the end, then clamp. */
  function SliceBound(len: nat, x: int): (b: nat)
    ensures b <= len
  {
    if x < 0 then (if len + x < 0 then 0 else len + x) else if x < len then x else len
  }

  /** `s.slice(start, end)`: empty when the clamped end does not exceed the clamped start. */
  function JsSlice<T>(s: seq<T>, start: int, end: int): seq<T> {
    var from, to := SliceBound(|s|, start), SliceBound(|s|, end);
    if from < to then s[from..to] else []
  }

  datatype PagingRule = AsWritten | Corrected

  /**
   * The loop variables: `index`, the lookup table built so far, and (as a
   * record of the run) every key-id list requested so far.
   */
  datatype Paging = Paging(index: int, table: KeyTable, requests: seq<seq<KeyId>>)

  const StartPaging := Paging(0, map[], [])

  /** The ids one iteration asks for. */
  function PageRequest(rule: PagingRule, keys: seq<KeyId>, index: int): seq<KeyId> {
    match rule
    case AsWritten => JsSlice(keys, index, KeysRequestPage - 1)
    case Corrected => JsSlice(keys, index, index + KeysRequestPage)
  }

  /** The loop update. `index =+ keys_request_page` assigns `+300`; it does not add. */
  function NextIndex(rule: PagingRule, index: int): int {
    match rule
    case AsWritten => KeysRequestPage
    case Corrected => index + KeysRequestPage
  }

  /** The keys endpoint, as an input: the reply it gives for a list of key ids. */
  type KeysFetcher = seq<KeyId> -> Reply<seq<Key>>

  /** One loop iteration: request a page, merge it into the table, update `index`. */
  function PagingStep(rule: PagingRule, keys: seq<KeyId>, fetch: KeysFetcher, st: Paging): (r: Result<Paging>)
    ensures r.Ok? ==> |r.value.requests| == |st.requests| + 1 && r.value.requests[..|st.requests|] == st.requests
    ensures r.Err? ==> WellFormed(r.error)
    ensures r.Err? ==>
              var reply := Classify(fetch(PageRequest(rule, keys, st.index)));
              reply.Err? && r.error == reply.error
  {
    var request := PageRequest(rule, keys, st.index);
    var page :- Classify(fetch(request));
    Ok(Paging(NextIndex(rule, st.index), MergePage(st.table, page), st.requests + [request]))
  }

  /** How a bounded run ends; a failed run keeps the requests it made, the failing one last. */
  datatype LoopOutcome =
    | Finished(final: Paging)
    | Failed(error: WorkerError, attempted: seq<seq<KeyId>>)
    | StillRunning(current: Paging)

  /** Runs the loop from `st` for at most `fuel` iterations. */
  function RunPaging(rule: PagingRule, keys: seq<KeyId>, fetch: KeysFetcher, st: Paging, fuel: nat): (o: LoopOutcome)
    ensures o.Finished? ==> o.final.index >= |keys|
    ensures o.StillRunning? ==> o.current.index < |keys|
    ensures o.Failed? ==> WellFormed(o.error)
    ensures o.Failed? ==> |o.attempted| > |st.requests| && o.attempted[..|st.requests|] == st.requests
    ensures o.Failed? ==>
              var last := Classify(fetch(o.attempted[|o.attempted| - 1]));
              last.Err? && o.error == last.error
    decreases fuel
  {
    if st.index >= |keys| then Finished(st)
    else if fuel == 0 then StillRunning(st)
    else
      match PagingStep(rule, keys, fetch, st)
      case Err(e) => Failed(e, st.requests + [PageRequest(rule, keys, st.index)])
      case Ok(next) => RunPaging(rule, keys, fetch, next, fuel - 1)
  }

  /** As written, every iteration sets `index` to 300 and asks for `keys.slice(index, 299)`. */
  lemma AsWrittenStep(keys: seq<KeyId>, fetch: KeysFetcher, st: Paging)
    ensures var r := PagingStep(AsWritten, keys, fetch, st);
            r.Ok? ==> r.value.index == KeysRequestPage && r.value.requests == st.requests + [JsSlice(keys, st.index, 299)]
  {
  }

  /** Without keys the loop body never runs: nothing is requested and the table stays empty. */
  lemma NoKeysNoRequests(rule: PagingRule, fetch: KeysFetcher, fuel: nat)
    ensures RunPaging(rule, [], fetch, StartPaging, fuel) == Finished(StartPaging)
  {
  }

  function Min(a: int, b: int): int {
    if a < b then a else b
  }

  /**
   * As written, with 1 to 300 keys the loop runs exactly once and asks for
   * the first `min(n, 299)` keys only.
   */
  lemma AsWrittenSinglePage(keys: seq<KeyId>, fetch: KeysFetcher, fuel: nat)
    requires 1 <= |keys| <= KeysRequestPage && fuel >= 1
    ensures var request := keys[..Min(|keys|, KeysRequestPage - 1)];
            RunPaging(AsWritten, keys, fetch, StartPaging, fuel) ==
              match Classify(fetch(request))
              case Ok(page) => Finished(Paging(KeysRequestPage, MergePage(map[], page), [request]))
              case Err(e) => Failed(e, [request])
  {
  }

  /**
   * As written, once `index` is 300 and there are more than 300 keys, the
   * guard stays true: the loop never finishes, and each further iteration
   * asks for the empty list.
   */
  lemma {:induction false} AsWrittenStuckAt300(keys: seq<KeyId>, fetch: KeysFetcher, st: Paging, fuel: nat)
    requires |keys| > KeysRequestPage && st.index == KeysRequestPage
    ensures var o := RunPaging(AsWritten, keys, fetch, st, fuel);
            && !o.Finished?
            && (o.StillRunning? ==> o.current.index == KeysRequestPage &&
                                    o.current.requests == st.requests + seq(fuel, _ => []))
            && (o.Failed? ==> |st.requests| < |o.attempted| &&
                              o.attempted == st.requests + seq(|o.attempted| - |st.requests|, _ => []))
    decreases fuel
  {
    if fuel > 0 {
      assert PageRequest(AsWritten, keys, st.index) == [];
      match PagingStep(AsWritten, keys, fetch, st)
      case Err(e) =>
        assert st.requests + [[]] == st.requests + seq(1, _ => []);
      case Ok(next) =>
        AsWrittenStuckAt300(keys, fetch, next, fuel - 1);
        assert st.requests + [[]] + seq(fuel - 1, _ => []) == st.requests + seq(fuel, _ => []);
    }
  }

  /**
   * As written, with more than 300 keys the loop never terminates: however
   * many iterations are allowed, it is still running (or an upstream call
   * failed), and after the first request only empty lists are requested.
   */
  lemma AsWrittenNeverFinishes(keys: seq<KeyId>, fetch: KeysFetcher, fuel: nat)
    requires |keys| > KeysRequestPage
    ensures var o := RunPaging(AsWritten, keys, fetch, StartPaging, fuel);
            && !o.Finished?
            && (o.StillRunning? && fuel > 0 ==>
                  o.current.requests == [keys[..KeysRequestPage - 1]] + seq(fuel - 1, _ => []))
            && (o.Failed? ==>
                  && 0 < |o.attempted|
                  && o.attempted == [keys[..KeysRequestPage - 1]] + seq(|o.attempted| - 1, _ => []))
  {
    if fuel > 0 {
      assert PageRequest(AsWritten, keys, 0) == keys[..KeysRequestPage - 1];
      match PagingStep(AsWritten, keys, fetch, StartPaging)
      case Err(e) =>
      case Ok(next) =>
        AsWrittenStuckAt300(keys, fetch, next, fuel - 1);
    }
  }

  /** The requests made in a run, including the one that failed. */
  function RequestsOf(o: LoopOutcome): seq<seq<KeyId>> {
    match o
    case Finished(st) => st.requests
    case StillRunning(st) => st.requests
    case Failed(_, attempted) => attempted
  }

  /** As written, the 300th distinct key (index 299) is never asked for, however long the loop runs. */
  lemma AsWrittenSkipsKey299(keys: seq<KeyId>, fetch: KeysFetcher, fuel: nat)
    requires NoDuplicates(keys) && |keys| >= KeysRequestPage
    ensures forall r :: r in RequestsOf(RunPaging(AsWritten, keys, fetch, StartPaging, fuel)) ==> keys[299] !in r
  {
    var o := RunPaging(AsWritten, keys, fetch, StartPaging, fuel);
    var first := keys[..KeysRequestPage - 1];
    assert keys[299] !in first by {
      forall i | 0 <= i < |first| ensures first[i] != keys[299] {
        assert first[i] == keys[i];
      }
    }
    if |keys| == KeysRequestPage {
      if fuel >= 1 {
        AsWrittenSinglePage(keys, fetch, fuel);
      }
    } else {
      AsWrittenNeverFinishes(keys, fetch, fuel);
    }
  }

  /** Concatenation of the requested key-id lists. */
  function Flatten(requests: seq<seq<KeyId>>): seq<KeyId> {
    if |requests| == 0 then [] else Flatten(requests[..|requests| - 1]) + requests[|requests| - 1]
  }

  /** The keys endpoint answers every request successfully. */
  ghost predicate AlwaysAnswers(fetch: KeysFetcher) {
    forall request :: fetch(request).Replied? && IsOk(fetch(request).status)
  }

  lemma {:induction false} CorrectedRun(keys: seq<KeyId>, fetch: KeysFetcher, st: Paging, fuel: nat)
    requires AlwaysAnswers(fetch)
    requires 0 <= st.index && Flatten(st.requests) == keys[..Min(st.index, |keys|)]
    requires fuel * KeysRequestPage >= |keys| - st.index
    ensures var o := RunPaging(Corrected, keys, fetch, st, fuel);
            o.Finished? && Flatten(o.final.requests) == keys
    decreases fuel
  {
    if st.index < |keys| {
      var request := PageRequest(Corrected, keys, st.index);
      var hi := Min(st.index + KeysRequestPage, |keys|);
      assert request == keys[st.index..hi];
      assert Classify(fetch(request)).Ok?;
      var next := PagingStep(Corrected, keys, fetch, st).value;
      assert next.requests[..|next.requests| - 1] == st.requests;
      assert keys[..hi] == keys[..st.index] + keys[st.index..hi];
      CorrectedRun(keys, fetch, next, fuel - 1);
    } else {
      assert keys[..|keys|] == keys;
    }
  }

  /**
   * Corrected paging (`index += 300`, `slice(index, index + 300)`) finishes
   * after ⌈n/300⌉ iterations, and the pages it requested are exactly the keys,
   * in order, each once.
   */
  lemma CorrectedPagingRequestsEveryKey(keys: seq<KeyId>, fetch: KeysFetcher, fuel: nat)
    requires AlwaysAnswers(fetch)
    requires fuel * KeysRequestPage >= |keys|
    ensures var o := RunPaging(Corrected, keys, fetch, StartPaging, fuel);
            o.Finished? && Flatten(o.final.requests) == keys
  {
    CorrectedRun(keys, fetch, StartPaging, fuel);
  }

  // ---------------------------------------------------------------------------
  // Grouping (`comments.forEach(...)` into `comments_indexed`)
  // ---------------------------------------------------------------------------

  /** The fields of a new group: copied from the key record, `undefined` when the key is missing. */
  function DataFor(table: KeyTable, id: KeyId): KeyData {
    if id in table then KeyData(Some(table[id].keyName), Some(table[id].filenames))
    else KeyData(None, None)
  }

  /** The comments with key id `id`, in input order. */
  function CommentsOf(cs: seq<Comment>, id: KeyId): (r: seq<Comment>)
    ensures forall c :: c in r ==> c in cs && c.keyId == id
    ensures |r| <= |cs|
    decreases |cs|
  {
    if |cs| == 0 then []
    else
      var c := cs[|cs| - 1];
      CommentsOf(cs[..|cs| - 1], id) + (if c.keyId == id then [c] else [])
  }

  function KeyIdSet(cs: seq<Comment>): set<KeyId> {
    set c | c in cs :: c.keyId
  }

  /** `comments.forEach`: create the group on a key's first comment, then append. */
  function GroupComments(cs: seq<Comment>, table: KeyTable): map<KeyId, CommentGroup>
    decreases |cs|
  {
    if |cs| == 0 then map[]
    else
      var c := cs[|cs| - 1];
      var g := GroupComments(cs[..|cs| - 1], table);
      var group := if c.keyId in g then g[c.keyId] else CommentGroup(DataFor(table, c.keyId), []);
      g[c.keyId := group.(comments := group.comments + [c])]
  }

  /** No comment for a key id that no comment refers to. */
  lemma {:induction false} NoCommentsOfAbsentKey(cs: seq<Comment>, id: KeyId)
    requires id !in KeyIdSet(cs)
    ensures CommentsOf(cs, id) == []
    decreases |cs|
  {
    if |cs| > 0 {
      var prefix := cs[..|cs| - 1];
      assert cs[|cs| - 1] in cs;
      assert KeyIdSet(prefix) <= KeyIdSet(cs) by {
        forall c | c in prefix ensures c in cs { }
      }
      NoCommentsOfAbsentKey(prefix, id);
    }
  }

  /**
   * The aggregator's output has one group per referenced key id, holding
   * that key's data and exactly the comments for that key, in input order.
   */
  lemma {:induction false} GroupCommentsByKey(cs: seq<Comment>, table: KeyTable)
    ensures var groups := GroupComments(cs, table);
            && groups.Keys == KeyIdSet(cs)
            && forall id :: id in groups ==>
                 groups[id].comments == CommentsOf(cs, id) && groups[id].data == DataFor(table, id)
    decreases |cs|
  {
    if |cs| > 0 {
      var prefix := cs[..|cs| - 1];
      var c := cs[|cs| - 1];
      GroupCommentsByKey(prefix, table);
      assert cs == prefix + [c];
      assert KeyIdSet(cs) == KeyIdSet(prefix) + {c.keyId};
      if c.keyId !in KeyIdSet(prefix) {
        NoCommentsOfAbsentKey(prefix, c.keyId);
      }
    }
  }

  lemma {:induction false} CommentInItsKeysList(cs: seq<Comment>, c: Comment)
    requires c in cs
    ensures c in CommentsOf(cs, c.keyId)
    decreases |cs|
  {
    var prefix := cs[..|cs| - 1];
    if cs[|cs| - 1] != c {
      assert cs == prefix + [cs[|cs| - 1]];
      CommentInItsKeysList(prefix, c);
    }
  }

  /** Every comment lands in the group of its own key id, and only comments of that key are there. */
  lemma EveryCommentGrouped(cs: seq<Comment>, table: KeyTable)
    ensures var groups := GroupComments(cs, table);
            && (forall c :: c in cs ==> c.keyId in groups && c in groups[c.keyId].comments)
            && (forall id, c :: id in groups && c in groups[id].comments ==> c in cs && c.keyId == id)
  {
    GroupCommentsByKey(cs, table);
    forall c | c in cs ensures c in CommentsOf(cs, c.keyId) {
      CommentInItsKeysList(cs, c);
    }
  }

  /** The total of the group sizes over the listed key ids. */
  function TotalGrouped(groups: map<KeyId, CommentGroup>, ids: seq<KeyId>): nat {
    if |ids| == 0 then 0
    else (if ids[0] in groups then |groups[ids[0]].comments| else 0) + TotalGrouped(groups, ids[1..])
  }

  function SumCounts(cs: seq<Comment>, ids: seq<KeyId>): nat {
    if |ids| == 0 then 0 else |CommentsOf(cs, ids[0])| + SumCounts(cs, ids[1..])
  }

  function Occurrences(ids: seq<KeyId>, id: KeyId): nat {
    if |ids| == 0 then 0 else (if ids[0] == id then 1 else 0) + Occurrences(ids[1..], id)
  }

  lemma {:induction false} SumCountsAppendComment(p: seq<Comment>, c: Comment, ids: seq<KeyId>)
    ensures SumCounts(p + [c], ids) == SumCounts(p, ids) + Occurrences(ids, c.keyId)
    decreases |ids|
  {
    if |ids| > 0 {
      assert (p + [c])[..|p + [c]| - 1] == p;
      SumCountsAppendComment(p, c, ids[1..]);
    }
  }

  lemma {:induction false} SumCountsAppendId(cs: seq<Comment>, ids: seq<KeyId>, id: KeyId)
    ensures SumCounts(cs, ids + [id]) == SumCounts(cs, ids) + |CommentsOf(cs, id)|
    decreases |ids|
  {
    if |ids| > 0 {
      assert (ids + [id])[1..] == ids[1..] + [id];
      SumCountsAppendId(cs, ids[1..], id);
    }
  }

  lemma {:induction false} OccurrencesDistinct(ids: seq<KeyId>, id: KeyId)
    requires NoDuplicates(ids)
    ensures Occurrences(ids, id) == if id in ids then 1 else 0
    decreases |ids|
  {
    if |ids| > 0 {
      OccurrencesDistinct(ids[1..], id);
      if ids[0] == id {
        assert id !in ids[1..] by {
          forall j | 0 <= j < |ids[1..]| ensures ids[1..][j] != id {
            assert ids[1..][j] == ids[j + 1];
          }
        }
      } else {
        assert id in ids <==> id in ids[1..] by {
          assert ids == [ids[0]] + ids[1..];
        }
      }
    }
  }

  /** A new comment adds its key id at the end of the key list, unless the id is already listed. */
  lemma DistinctKeyIdsAppend(p: seq<Comment>, c: Comment)
    ensures DistinctKeyIds(p + [c]) ==
              if c.keyId in DistinctKeyIds(p) then DistinctKeyIds(p) else DistinctKeyIds(p) + [c.keyId]
  {
    var cs := p + [c];
    assert KeyIdsOf(cs)[..|cs| - 1] == KeyIdsOf(p);
  }

  lemma {:induction false} CommentCountOverDistinct(cs: seq<Comment>)
    ensures SumCounts(cs, DistinctKeyIds(cs)) == |cs|
    decreases |cs|
  {
    if |cs| > 0 {
      var p := cs[..|cs| - 1];
      var c := cs[|cs| - 1];
      assert cs == p + [c];
      CommentCountOverDistinct(p);
      var dp := DistinctKeyIds(p);
      var d := DistinctKeyIds(cs);
      DistinctKeyIdsAppend(p, c);
      SumCountsAppendComment(p, c, d);
      OccurrencesDistinct(d, c.keyId);
      if c.keyId !in dp {
        SumCountsAppendId(p, dp, c.keyId);
        assert c.keyId !in KeyIdSet(p);
        NoCommentsOfAbsentKey(p, c.keyId);
      }
    }
  }

  lemma {:induction false} TotalGroupedIsSumCounts(cs: seq<Comment>, table: KeyTable, ids: seq<KeyId>)
    requires forall id :: id in ids ==> id in KeyIdSet(cs)
    ensures TotalGrouped(GroupComments(cs, table), ids) == SumCounts(cs, ids)
    decreases |ids|
  {
    if |ids| > 0 {
      GroupCommentsByKey(cs, table);
      TotalGroupedIsSumCounts(cs, table, ids[1..]);
    }
  }

  /** Grouping neither loses nor duplicates a comment: the group sizes add up to the input size. */
  lemma CommentCountPreserved(cs: seq<Comment>, table: KeyTable)
    ensures TotalGrouped(GroupComments(cs, table), DistinctKeyIds(cs)) == |cs|
  {
    var d := DistinctKeyIds(cs);
    forall id | id in d ensures id in KeyIdSet(cs) {
      var c :| c in cs && c.keyId == id;
    }
    TotalGroupedIsSumCounts(cs, table, d);
    CommentCountOverDistinct(cs);
  }

  // ---------------------------------------------------------------------------
  // The whole aggregation
  // ---------------------------------------------------------------------------

  datatype CommentsOutcome =
    | Indexed(groups: map<KeyId, CommentGroup>)
    | Rejected(error: WorkerError)
    | Unfinished

  /**
   * Fetch comments, page the key lookups, group. The comments reply and the
   * keys endpoint are inputs; `fuel` bounds the number of loop iterations.
   */
  function FetchProjectComments(rule: PagingRule, commentsReply: Reply<seq<Comment>>, fetch: KeysFetcher, fuel: nat)
    : (o: CommentsOutcome)
    ensures o.Indexed? ==>
              (Classify(commentsReply).Ok? && o.groups.Keys == KeyIdSet(Classify(commentsReply).value))
    ensures o.Indexed? ==> forall id :: id in o.groups ==>
              o.groups[id].comments == CommentsOf(Classify(commentsReply).value, id)
    ensures commentsReply.Unreachable? ==> o == Rejected(CantReachExternalApi)
    ensures Classify(commentsReply).Err? ==> o == Rejected(Classify(commentsReply).error)
    ensures Classify(commentsReply).Ok? ==>
              var run := RunPaging(rule, DistinctKeyIds(Classify(commentsReply).value), fetch, StartPaging, fuel);
              && (run.Failed? ==> o == Rejected(run.error))
              && (run.StillRunning? ==> o == Unfinished)
              && (run.Finished? ==> o.Indexed? && forall id :: id in o.groups ==>
                    o.groups[id].data == DataFor(run.final.table, id))
    ensures o.Rejected? ==> WellFormed(o.error)
  {
    match Classify(commentsReply)
    case Err(e) => Rejected(e)
    case Ok(cs) =>
      var keys := DistinctKeyIds(cs);
      match RunPaging(rule, keys, fetch, StartPaging, fuel)
      case Finished(st) =>
        GroupCommentsByKey(cs, st.table);
        Indexed(GroupComments(cs, st.table))
      case Failed(e, _) => Rejected(e)
      case StillRunning(_) => Unfinished
  }

  /** With zero comments no key page is requested and the result is the empty map. */
  lemma NoCommentsEmptyResult(rule: PagingRule, status: int, fetch: KeysFetcher, fuel: nat)
    requires IsOk(status)
    ensures FetchProjectComments(rule, Replied(status, []), fetch, fuel) == Indexed(map[])
  {
  }

  /** When the keys endpoint answers every request, the loop never fails: it finishes or is still running. */
  lemma {:induction false} AnsweredLoopNeverFails(rule: PagingRule, keys: seq<KeyId>, fetch: KeysFetcher, st: Paging, fuel: nat)
    requires AlwaysAnswers(fetch)
    ensures !RunPaging(rule, keys, fetch, st, fuel).Failed?
    decreases fuel
  {
    if st.index < |keys| && fuel > 0 {
      assert Classify(fetch(PageRequest(rule, keys, st.index))).Ok?;
      AnsweredLoopNeverFails(rule, keys, fetch, PagingStep(rule, keys, fetch, st).value, fuel - 1);
    }
  }

  /**
   * As written, comments on more than 300 distinct keys are never answered
   * with the grouped comments: the loop runs until a key request fails, and
   * then the request rejects with that failure; while every key request
   * succeeds it never ends.
   */
  lemma AsWrittenNeverAnswersOver300Keys(status: int, cs: seq<Comment>, fetch: KeysFetcher, fuel: nat)
    requires IsOk(status) && |DistinctKeyIds(cs)| > KeysRequestPage
    ensures var o := FetchProjectComments(AsWritten, Replied(status, cs), fetch, fuel);
            && !o.Indexed?
            && (o.Rejected? ==> WellFormed(o.error))
            && (AlwaysAnswers(fetch) ==> o == Unfinished)
  {
    AsWrittenNeverFinishes(DistinctKeyIds(cs), fetch, fuel);
    if AlwaysAnswers(fetch) {
      AnsweredLoopNeverFails(AsWritten, DistinctKeyIds(cs), fetch, StartPaging, fuel);
    }
  }

  /**
   * As written, comments on 1 to 300 distinct keys are grouped with a table
   * built from the single page fetched for the first `min(n, 299)` keys.
   */
  lemma AsWrittenAnswersUpTo300Keys(status: int, cs: seq<Comment>, fetch: KeysFetcher, fuel: nat)
    requires IsOk(status) && 1 <= |DistinctKeyIds(cs)| <= KeysRequestPage && fuel >= 1
    requires var keys := DistinctKeyIds(cs);
             Classify(fetch(keys[..Min(|keys|, KeysRequestPage - 1)])).Ok?
    ensures var keys := DistinctKeyIds(cs);
            var page := Classify(fetch(keys[..Min(|keys|, KeysRequestPage - 1)])).value;
            FetchProjectComments(AsWritten, Replied(status, cs), fetch, fuel) ==
              Indexed(GroupComments(cs, MergePage(map[], page)))
  {
    AsWrittenSinglePage(DistinctKeyIds(cs), fetch, fuel);
  }
}

=== FILE: controllers.dfy ===
/**
 * The request shape the router and the handler see, the upstream world a
 * request meets, and the preview controller (`fetchPreviewController` in
 * fetch-html-preview.ts, identical to `fetchPreviewHtmlController` in
 * fetch-preview-html.ts) together with the language-ISO step.
 */
module Controllers {
  import opened Optional
  import opened Http
  import opened Errors
  import opened Upstream
  import opened Archive

  /**
   * The request body as `request.json()` decodes it. Only `fileformat` is
   * read by the worker itself; the other fields are forwarded to the
   * upstream, whose replies are inputs.
   */
  datatype Params = Params(fileformat: Option<string>)

  /** `params` is `None` when the body is not valid JSON (`request.json()` rejects). */
  datatype Request = Request(httpMethod: string, path: string, headers: HeaderMap, params: Option<Params>)

  /**
   * Everything outside the worker that a request meets: the upstream replies
   * to the language and bundle requests, the bundle download, and the
   * decompressor.
   */
  datatype World = World(
    langIsoReply: Reply<Option<string>>,
    bundleReply: Reply<string>,
    download: string -> Download,
    unzip: seq<bv8> -> Unzipped)

  /** The decoded body, or the error `request.json()` rejects with. */
  function ParseBody(params: Option<Params>): (r: Result<Params>)
    ensures r.Ok? <==> params.Some?
    ensures r.Err? ==> r.error == Unclassified
  {
    match params
    case None => Err(Unclassified)
    case Some(p) => Ok(p)
  }

  /** Resolve the bundle URL, download it, extract the preview file. */
  function FetchPreview(params: Option<Params>, world: World): (r: Result<seq<bv8>>)
    ensures r.Ok? <==>
              && params.Some?
              && Classify(world.bundleReply).Ok?
              && ExtractFileFromBundle(world.download(world.bundleReply.payload), world.unzip).Ok?
    ensures r.Ok? ==> r.value == ExtractFileFromBundle(world.download(world.bundleReply.payload), world.unzip).value
    ensures params.None? ==> r == Err(Unclassified)
    ensures params.Some? && Classify(world.bundleReply).Err? ==> r == Err(Classify(world.bundleReply).error)
    ensures params.Some? && Classify(world.bundleReply).Ok? ==>
              r == ExtractFileFromBundle(world.download(world.bundleReply.payload), world.unzip)
    ensures r.Err? ==> WellFormed(r.error)
  {
    var _ :- ParseBody(params);
    var bundleUrl :- Classify(world.bundleReply);
    ExtractFileFromBundle(world.download(bundleUrl), world.unzip)
  }

  /**
   * The preview controller: on success the file's bytes with the Content-type
   * header replaced by the preview type (empty unless HTML was asked for);
   * on failure the rejection of whichever step failed.
   */
  function FetchPreviewController(params: Option<Params>, headers: HeaderMap, world: World): (r: Result<Response>)
    ensures r.Ok? <==> FetchPreview(params, world).Ok?
    ensures r.Ok? ==>
              && r.value.status == 200
              && r.value.body == Bytes(FetchPreview(params, world).value)
              && r.value.headers == headers[ContentType := PreviewContentType(params.value.fileformat)]
    ensures r.Err? ==> r.error == FetchPreview(params, world).error && WellFormed(r.error)
  {
    var bytes :- FetchPreview(params, world);
    Ok(Respond(Bytes(bytes), headers[ContentType := PreviewContentType(params.value.fileformat)]))
  }

  /**
   * The language-ISO step: the decoded body, then the upstream's
   * `language?.lang_iso` (`None` when the payload has no language).
   */
  function LangIso(params: Option<Params>, world: World): (r: Result<Option<string>>)
    ensures r.Ok? <==> params.Some? && world.langIsoReply.Replied? && IsOk(world.langIsoReply.status)
    ensures r.Ok? ==> r.value == world.langIsoReply.payload
    ensures params.None? ==> r == Err(Unclassified)
    ensures params.Some? ==> r == Classify(world.langIsoReply)
    ensures r.Err? ==> WellFormed(r.error)
  {
    var _ :- ParseBody(params);
    Classify(world.langIsoReply)
  }
}

=== FILE: decimal.dfy ===
/**
 * Decimal rendering of integers, as a JavaScript template literal renders a
 * number (`${status}`), and the parser that reads such a rendering back.
 * The parser exists to state that the rendering loses nothing.
 */
module Decimal {
  import opened Optional

  predicate IsDigit(c: char) {
    '0' <= c <= '9'
  }

  predicate AllDigits(s: string) {
    forall i :: 0 <= i < |s| ==> IsDigit(s[i])
  }

  function DigitValue(c: char): (d: nat)
    requires IsDigit(c)
    ensures d < 10
  {
    c as int - '0' as int
  }

  function DigitChar(d: nat): (c: char)
    requires d < 10
    ensures IsDigit(c) && DigitValue(c) == d
  {
    ('0' as int + d) as char
  }

  /** Most significant digit first, no leading zeros. */
  function NatToString(n: nat): (s: string)
    ensures |s| > 0 && AllDigits(s)
    decreases n
  {
    if n < 10 then [DigitChar(n)] else NatToString(n / 10) + [DigitChar(n % 10)]
  }

  /** A minus sign in front of negative numbers, as JavaScript writes them. */
  function IntToString(n: int): (s: string)
    ensures |s| > 0
    ensures s[0] == '-' <==> n < 0
  {
    if n < 0 then "-" + NatToString(-n) else NatToString(n)
  }

  function ParseNat(s: string): nat
    requires AllDigits(s)
    decreases |s|
  {
    if |s| == 0 then 0 else ParseNat(s[..|s| - 1]) * 10 + DigitValue(s[|s| - 1])
  }

  /** Reads an optional minus sign followed by at least one digit. */
  function ParseInt(s: string): Option<int> {
    if |s| > 1 && s[0] == '-' && AllDigits(s[1..]) then Some(-(ParseNat(s[1..]) as int))
    else if |s| > 0 && AllDigits(s) then Some(ParseNat(s))
    else None
  }

  lemma {:induction false} ParseNatToString(n: nat)
    ensures ParseNat(NatToString(n)) == n
    decreases n
  {
    if n >= 10 {
      var s := NatToString(n);
      assert s[..|s| - 1] == NatToString(n / 10);
      ParseNatToString(n / 10);
    }
  }

  /** Rendering then parsing gives the number back. */
  lemma IntToStringRoundTrip(n: int)
    ensures ParseInt(IntToString(n)) == Some(n)
  {
    if n < 0 {
      var s := IntToString(n);
      assert s[1..] == NatToString(-n);
      ParseNatToString(-n);
    } else {
      ParseNatToString(n);
    }
  }

  /** Distinct numbers render as distinct strings. */
  lemma IntToStringInjective(a: int, b: int)
    requires IntToString(a) == IntToString(b)
    ensures a == b
  {
    IntToStringRoundTrip(a);
    IntToStringRoundTrip(b);
  }
}

=== FILE: errors.dfy ===
/**
 * The worker's error taxonomy: the classes the controllers throw, the table
 * that turns an upstream HTTP status into a thrown error (`throwAnError`),
 * and the table that turns a caught error into a response (`respondWithError`).
 */
module Errors {
  import opened Optional
  import opened Decimal
  import opened Http

  /** One constructor per error class; `Unclassified` is any other thrown value. */
  datatype WorkerError =
    | WithHttpCode(code: int, message: string)
    | CantReachExternalApi
    | DuringDownloadingPreviewArchive
    | EmptyPreviewArchive
    | EmptyPreviewExtracted
    | Unclassified

  /** What an `async` step resolves with, or the error it rejects with. */
  datatype Result<+T> = Ok(value: T) | Err(error: WorkerError) {
    predicate IsFailure() {
      Err?
    }

    function PropagateFailure<U>(): Result<U>
      requires Err?
    {
      Err(error)
    }

    function Extract(): T
      requires Ok?
    {
      value
    }
  }

  /** Upstream statuses that have a dedicated message and keep their code. */
  const KnownStatuses: set<int> := {400, 401, 403, 404, 429}

  /** Every code `throwAnError` can produce. */
  const UpstreamErrorCodes: set<int> := KnownStatuses + {502}

  const UnknownStatusPrefix := "Error code "
  const UnknownStatusSuffix := " was returned from Lokalise API."

  /** The message for a status without a dedicated one; the status is embedded in decimal. */
  function UnknownStatusMessage(status: int): string {
    UnknownStatusPrefix + IntToString(status) + UnknownStatusSuffix
  }

  /** The dedicated message of each known upstream status. */
  function KnownStatusMessage(status: int): string
    requires status in KnownStatuses
  {
    match status
    case 400 => "Some required parameter is incorrect or missing required parameter."
    case 401 => "API token is invalid."
    case 403 => "Authenticated user does not have necessary permissions."
    case 404 => "The requested resource does not exist."
    case 429 => "Too many requests hit the Lokalise API too quickly."
  }

  /**
   * The errors this worker can raise: an `ErrorWithHttpCode` is always one
   * `throwAnError` builds, that is, a dedicated status with its own message,
   * or 502 with the unknown-status message.
   */
  predicate WellFormed(e: WorkerError) {
    e.WithHttpCode? ==>
      || (e.code in KnownStatuses && e.message == KnownStatusMessage(e.code))
      || (e.code == 502 && |e.message| >= |UnknownStatusPrefix| &&
          e.message[..|UnknownStatusPrefix|] == UnknownStatusPrefix)
  }

  /**
   * The error thrown for a non-2xx upstream reply. The source function never
   * returns normally; the model returns the value it throws.
   */
  function ThrowAnError(status: int): (e: WorkerError)
    ensures e.WithHttpCode? && e.code in UpstreamErrorCodes && WellFormed(e)
    ensures status in KnownStatuses ==> e.code == status
    ensures status !in KnownStatuses ==> e == WithHttpCode(502, UnknownStatusMessage(status))
    ensures status == 400 ==> e.message == "Some required parameter is incorrect or missing required parameter."
    ensures status == 401 ==> e.message == "API token is invalid."
    ensures status == 403 ==> e.message == "Authenticated user does not have necessary permissions."
    ensures status == 404 ==> e.message == "The requested resource does not exist."
    ensures status == 429 ==> e.message == "Too many requests hit the Lokalise API too quickly."
  {
    if status in KnownStatuses then WithHttpCode(status, KnownStatusMessage(status))
    else WithHttpCode(502, UnknownStatusMessage(status))
  }


  const CantReachApiText := "Can't reach Lokalise API from the worker."
  const CantReachDownloadText := "Can't reach the preview download from the worker."
  const CantExtractText := "Can't extract preview from the downloaded preview archive."
  const GenericErrorText := "Error in the worker during processing the request."

  /**
   * The response for a caught error: no body, the headers handed in with
   * Content-type forced to JSON, and a status line chosen by the error's class.
   */
  function RespondWithError(error: WorkerError, headers: HeaderMap): (r: Response)
    ensures r.body == NoBody
    ensures r.headers == headers[ContentType := ApplicationJson]
    ensures forall h :: h in headers && h != ContentType ==> h in r.headers && r.headers[h] == headers[h]
    ensures error.WithHttpCode? ==> r.status == error.code && r.statusText == error.message
    ensures error == CantReachExternalApi ==> r.status == 502 && r.statusText == CantReachApiText
    ensures error == DuringDownloadingPreviewArchive || error == EmptyPreviewArchive ==>
              r.status == 502 && r.statusText == CantReachDownloadText
    ensures error == EmptyPreviewExtracted ==> r.status == 500 && r.statusText == CantExtractText
    ensures error == Unclassified ==> r.status == 500 && r.statusText == GenericErrorText
  {
    var hs := headers[ContentType := ApplicationJson];
    match error
    case WithHttpCode(code, message) => Response(code, message, hs, NoBody)
    case CantReachExternalApi => Response(502, CantReachApiText, hs, NoBody)
    case DuringDownloadingPreviewArchive => Response(502, CantReachDownloadText, hs, NoBody)
    case EmptyPreviewArchive => Response(502, CantReachDownloadText, hs, NoBody)
    case EmptyPreviewExtracted => Response(500, CantExtractText, hs, NoBody)
    case Unclassified => Response(500, GenericErrorText, hs, NoBody)
  }

  /** The unknown-status message keeps the status: it can be read back from the text. */
  lemma UnknownStatusMessageEmbedsStatus(status: int)
    ensures var m := UnknownStatusMessage(status);
            && |m| > |UnknownStatusPrefix| + |UnknownStatusSuffix|
            && m[..|UnknownStatusPrefix|] == UnknownStatusPrefix
            && m[|m| - |UnknownStatusSuffix|..] == UnknownStatusSuffix
            && ParseInt(m[|UnknownStatusPrefix|..|m| - |UnknownStatusSuffix|]) == Some(status)
  {
    var m := UnknownStatusMessage(status);
    assert m[|UnknownStatusPrefix|..|m| - |UnknownStatusSuffix|] == IntToString(status);
    IntToStringRoundTrip(status);
  }

  /** Different upstream statuses never throw the same error. */
  lemma ThrowAnErrorInjective(s1: int, s2: int)
    requires ThrowAnError(s1) == ThrowAnError(s2)
    ensures s1 == s2
  {
    if s1 !in KnownStatuses && s2 !in KnownStatuses {
      var m1 := UnknownStatusMessage(s1);
      var m2 := UnknownStatusMessage(s2);
      assert m1[|UnknownStatusPrefix|..|m1| - |UnknownStatusSuffix|] == IntToString(s1);
      assert m2[|UnknownStatusPrefix|..|m2| - |UnknownStatusSuffix|] == IntToString(s2);
      IntToStringInjective(s1, s2);
    }
  }

  /**
   * End to end, an upstream rejection reaches the caller as a response whose
   * status is the upstream status when it has a dedicated message and 502
   * otherwise, and whose status text still identifies the upstream status.
   */
  lemma UpstreamStatusResponse(status: int, headers: HeaderMap)
    ensures var r := RespondWithError(ThrowAnError(status), headers);
            && r.status in UpstreamErrorCodes
            && (status in KnownStatuses <==> r.status == status && status != 502)
            && (status !in KnownStatuses ==>
                  r.status == 502
                  && r.statusText[..|UnknownStatusPrefix|] == UnknownStatusPrefix
                  && ParseInt(r.statusText[|UnknownStatusPrefix|..|r.statusText| - |UnknownStatusSuffix|]) == Some(status))
  {
    if status !in KnownStatuses {
      UnknownStatusMessageEmbedsStatus(status);
    }
  }

  /** The response to an upstream rejection determines the upstream status. */
  lemma UpstreamStatusRecoverable(s1: int, s2: int, headers: HeaderMap)
    requires RespondWithError(ThrowAnError(s1), headers) == RespondWithError(ThrowAnError(s2), headers)
    ensures s1 == s2
  {
    assert ThrowAnError(s1) == ThrowAnError(s2);
    ThrowAnErrorInjective(s1, s2);
  }

  /**
   * Among the fixed error classes, the response tells them apart except for
   * a failed download and an empty archive, which share one status line.
   */
  lemma FixedErrorResponsesDistinct(e1: WorkerError, e2: WorkerError, headers: HeaderMap)
    requires !e1.WithHttpCode? && !e2.WithHttpCode?
    ensures RespondWithError(e1, headers) == RespondWithError(e2, headers) <==>
              e1 == e2 || {e1, e2} == {DuringDownloadingPreviewArchive, EmptyPreviewArchive}
  {
  }

  /** A well-formed error becomes a client or server error response, never anything else. */
  lemma ErrorResponseStatuses(e: WorkerError, headers: HeaderMap)
    requires WellFormed(e)
    ensures RespondWithError(e, headers).status in UpstreamErrorCodes + {500}
  {
  }
}

=== FILE: handler.dfy ===
/**
 * `handleRequest`, the single-file version of the worker. It dispatches like
 * the router but awaits the controller work inside its `try`, so every
 * failure becomes a `respondWithError` answer, and it only overrides the
 * JSON Content-type when the preview type is non-empty.
 *
 * Its local copies of `handleOptions`, `extractFileFromBundle`,
 * `respondWithError` and `throwAnError` are token-for-token the shared ones,
 * so this module uses the shared definitions.
 */
module Handler {
  import opened Optional
  import opened Http
  import opened Errors
  import opened Upstream
  import opened Options
  import opened Archive
  import opened Controllers
  import opened Router

  /** `processFetchPreviewCall`: the preview bytes and the preview type. */
  function ProcessFetchPreviewCall(params: Option<Params>, world: World): (r: Result<(seq<bv8>, string)>)
    ensures r.Ok? <==> FetchPreview(params, world).Ok?
    ensures r.Ok? ==> r.value.0 == FetchPreview(params, world).value &&
                      r.value.1 == PreviewContentType(params.value.fileformat)
    ensures r.Err? ==> r.error == FetchPreview(params, world).error
  {
    var bytes :- FetchPreview(params, world);
    Ok((bytes, PreviewContentType(params.value.fileformat)))
  }

  /** The awaited result of the controller work, or `respondWithError` of its failure. */
  function Awaited(r: Result<Response>, headers: HeaderMap): Response {
    match r
    case Ok(response) => response
    case Err(e) => RespondWithError(e, headers)
  }

  function HandleRequest(request: Request, world: World): (r: Response)
    ensures request.httpMethod != "OPTIONS" && request.path == GetLangIsoPath &&
            request.params.Some? && world.langIsoReply.Replied? && IsOk(world.langIsoReply.status) ==>
              r == Respond(LangIsoJson(world.langIsoReply.payload), BaseHeaders)
    ensures request.httpMethod != "OPTIONS" && request.path == FetchPreviewPath && FetchPreview(request.params, world).Ok? ==>
              r.status == 200 && r.body == Bytes(FetchPreview(request.params, world).value)
    ensures request.httpMethod != "OPTIONS" ==>
              AccessControlAllowOrigin in r.headers && r.headers[AccessControlAllowOrigin] == AllowOrigin
    ensures request.httpMethod != "OPTIONS" ==> ContentType in r.headers
  {
    if request.httpMethod == "OPTIONS" then OptionsController(request.headers)
    else
      var headers := BaseHeaders;
      if request.path == GetLangIsoPath then
        Awaited(
          match LangIso(request.params, world)
          case Ok(langIso) => Ok(Respond(LangIsoJson(langIso), headers))
          case Err(e) => Err(e),
          headers)
      else if request.path == FetchPreviewPath then
        Awaited(
          match ProcessFetchPreviewCall(request.params, world)
          case Ok((bytes, contentType)) =>
            // `if (previewData.contentType)`: the empty string is falsy
            Ok(Respond(Bytes(bytes), if contentType != "" then headers[ContentType := contentType] else headers))
          case Err(e) => Err(e),
          headers)
      else NotFound(headers)
  }

  /** `OPTIONS` is answered by the options logic on every path, before any path is looked at. */
  lemma HandlerOptionsFirst(request: Request, world: World)
    requires request.httpMethod == "OPTIONS"
    ensures HandleRequest(request, world) == OptionsController(request.headers)
  {
  }

  /** No error the worker raises is answered with the path-not-found status line. */
  lemma ErrorResponseIsNotPathNotFound(e: WorkerError, headers: HeaderMap)
    requires WellFormed(e)
    ensures RespondWithError(e, headers).statusText != NotFoundText
  {
    if e.WithHttpCode? && e.code == 502 {
      assert NotFoundText[0] != UnknownStatusPrefix[0];
    }
  }

  /**
   * The 404 answer is given exactly to the non-`OPTIONS` requests on a path
   * other than the two dispatched ones: no failure on a dispatched path is
   * mistaken for it.
   */
  lemma HandlerNotFoundIff(request: Request, world: World)
    ensures HandleRequest(request, world) == NotFound(BaseHeaders) <==>
              request.httpMethod != "OPTIONS" && request.path !in DispatchedPaths
  {
  }

  /** Every controller failure is converted by `respondWithError` with the base headers. */
  lemma HandlerConvertsFailures(request: Request, world: World)
    requires request.httpMethod != "OPTIONS"
    ensures request.path == FetchPreviewPath && FetchPreview(request.params, world).Err? ==>
              HandleRequest(request, world) == RespondWithError(FetchPreview(request.params, world).error, BaseHeaders)
    ensures request.path == GetLangIsoPath && LangIso(request.params, world).Err? ==>
              HandleRequest(request, world) == RespondWithError(LangIso(request.params, world).error, BaseHeaders)
  {
  }

  /**
   * A served preview is answered with the extracted file's bytes and is
   * labelled `text/html` for HTML; for any other format the empty type is
   * falsy, so the JSON Content-type stays.
   */
  lemma HandlerPreviewContentType(request: Request, world: World)
    requires request.httpMethod != "OPTIONS" && request.path == FetchPreviewPath
    requires FetchPreview(request.params, world).Ok?
    ensures var r := HandleRequest(request, world);
            && r.status == 200
            && r.body == Bytes(FetchPreview(request.params, world).value)
            && r.headers[ContentType] ==
                 (if request.params.value.fileformat == Some("html") then TextHtml else ApplicationJson)
  {
  }

  /**
   * A language lookup is answered, by both dispatchers alike, with status 200,
   * the base headers and the JSON object `{langIso}` holding exactly the
   * upstream's `language.lang_iso`; it succeeds iff the body decodes and the
   * upstream answers 2xx with a decodable body.
   */
  lemma LangIsoAnswered(request: Request, world: World)
    requires request.httpMethod != "OPTIONS" && request.path == GetLangIsoPath
    ensures LangIso(request.params, world).Ok? ==>
              && HandleRequest(request, world) == Respond(LangIsoJson(world.langIsoReply.payload), BaseHeaders)
              && RouteRequest(request, world) == Responded(HandleRequest(request, world))
              && HandleRequest(request, world).status == 200
    ensures LangIso(request.params, world).Ok? <==>
              request.params.Some? && world.langIsoReply.Replied? && IsOk(world.langIsoReply.status)
  {
  }

  /**
   * The two dispatchers agree except in two places: where the router's
   * request rejects, the handler answers with `respondWithError` of the same
   * error; and a non-HTML preview keeps the JSON Content-type in the handler
   * but gets the empty one from the router. Status, status text, body and
   * every other header coincide.
   */
  lemma RouterAndHandlerDiffer(request: Request, world: World)
    ensures var o, r := RouteRequest(request, world), HandleRequest(request, world);
            && (o.Rejected? ==> r == RespondWithError(o.error, BaseHeaders))
            && (o.Responded? ==>
                  && r.status == o.response.status
                  && r.statusText == o.response.statusText
                  && r.body == o.response.body
                  && (ContentType in r.headers <==> ContentType in o.response.headers)
                  && (ContentType in r.headers && r.headers[ContentType] != o.response.headers[ContentType] ==>
                        && request.httpMethod != "OPTIONS" && request.path == FetchPreviewPath
                        && FetchPreview(request.params, world).Ok?
                        && request.params.value.fileformat != Some("html"))
                  && forall h :: h != ContentType ==>
                       (h in r.headers <==> h in o.response.headers) &&
                       (h in r.headers ==> r.headers[h] == o.response.headers[h]))
  {
  }
}

=== FILE: http.dfy ===
/**
 * The few pieces of the web runtime's `Headers` and `Response` that the
 * worker relies on, as plain values.
 */
module Http {
  import opened Optional

  /**
   * Header name to value. Names are written exactly as the worker writes them
   * (the runtime compares them case-insensitively; the worker always uses the
   * same spelling for a given header).
   */
  type HeaderMap = map<string, string>

  const AccessControlAllowOrigin := "Access-Control-Allow-Origin"
  const ContentType := "Content-type"
  const ApplicationJson := "application/json"
  const TextHtml := "text/html"

  /**
   * A response body: `null`, raw bytes, or the JSON document `{langIso}`
   * (kept as the value it serialises, since JSON output is not modelled).
   */
  datatype Body = NoBody | Bytes(data: seq<bv8>) | LangIsoJson(langIso: Option<string>)

  datatype Response = Response(status: int, statusText: string, headers: HeaderMap, body: Body)

  /** `new Response(body, {headers})`: the runtime's defaults are status 200 and an empty status text. */
  function Respond(body: Body, headers: HeaderMap): Response {
    Response(200, "", headers, body)
  }
}

=== FILE: optional.dfy ===
/** An optional value: JavaScript's `null` / `undefined` on one side, a present value on the other. */
module Optional {

  datatype Option<+T> = None | Some(value: T)
}

=== FILE: options.dfy ===
/** The answer to an `OPTIONS` request: a CORS preflight answer, or a plain `Allow` list. */
module Options {
  import opened Http

  /** The one origin the worker admits. */
  const AllowOrigin := "https://app.lokalise.com"

  const Origin := "Origin"
  const AccessControlRequestMethod := "Access-Control-Request-Method"
  const AccessControlRequestHeaders := "Access-Control-Request-Headers"
  const AccessControlAllowMethods := "Access-Control-Allow-Methods"
  const AccessControlMaxAge := "Access-Control-Max-Age"
  const AccessControlAllowHeaders := "Access-Control-Allow-Headers"

  /** All three request headers a browser sends with a preflight are present. */
  predicate IsPreflight(request: HeaderMap) {
    Origin in request && AccessControlRequestMethod in request && AccessControlRequestHeaders in request
  }

  function OptionsController(request: HeaderMap): (r: Response)
    ensures r.status == 200 && r.statusText == "" && r.body == NoBody
    ensures IsPreflight(request) ==>
              r.headers == map[AccessControlAllowOrigin := AllowOrigin,
                               AccessControlAllowMethods := "GET,HEAD,POST,OPTIONS",
                               AccessControlMaxAge := "86400",
                               AccessControlAllowHeaders := request[AccessControlRequestHeaders]]
    ensures !IsPreflight(request) ==> r.headers == map["Allow" := "GET, HEAD, POST, OPTIONS"]
  {
    if IsPreflight(request) then
      var headers := map[][AccessControlAllowOrigin := AllowOrigin]
                          [AccessControlAllowMethods := "GET,HEAD,POST,OPTIONS"]
                          [AccessControlMaxAge := "86400"]
                          [AccessControlAllowHeaders := request[AccessControlRequestHeaders]];
      Respond(NoBody, headers)
    else
      Respond(NoBody, map["Allow" := "GET, HEAD, POST, OPTIONS"])
  }

  /**
   * The preflight branch is taken exactly when the three request headers are
   * present, and only that branch grants the origin.
   */
  lemma PreflightIffAllowOrigin(request: HeaderMap)
    ensures IsPreflight(request) <==> AccessControlAllowOrigin in OptionsController(request).headers
  {
  }

  /** A preflight answer echoes the requested headers back verbatim. */
  lemma PreflightEchoesRequestedHeaders(request: HeaderMap)
    requires IsPreflight(request)
    ensures var r := OptionsController(request);
            AccessControlAllowHeaders in r.headers &&
            r.headers[AccessControlAllowHeaders] == request[AccessControlRequestHeaders]
  {
  }

  /** A plain `OPTIONS` answer carries no CORS header at all, whatever the request holds. */
  lemma PlainOptionsHasNoCorsHeaders(request: HeaderMap)
    requires !IsPreflight(request)
    ensures var r := OptionsController(request);
            && AccessControlAllowOrigin !in r.headers
            && AccessControlAllowMethods !in r.headers
            && AccessControlAllowHeaders !in r.headers
            && AccessControlMaxAge !in r.headers
  {
  }

  /** Only the three preflight headers matter: the answer ignores every other request header. */
  lemma OptionsDependsOnlyOnPreflightHeaders(a: HeaderMap, b: HeaderMap)
    requires forall h :: h in {Origin, AccessControlRequestMethod, AccessControlRequestHeaders} ==>
               (h in a <==> h in b) && (h in a ==> a[h] == b[h])
    ensures OptionsController(a) == OptionsController(b)
  {
  }
}

=== FILE: router.dfy ===
/**
 * `routeRequest`: `OPTIONS` first, then two paths, then 404. The controllers'
 * results are returned without `await`, so a controller that rejects makes
 * the whole request reject: its error never reaches `respondWithError`.
 */
module Router {
  import opened Optional
  import opened Http
  import opened Errors
  import opened Upstream
  import opened Options
  import opened Controllers

  /** What the worker hands back to the runtime: a response, or a rejected promise. */
  datatype Outcome = Responded(response: Response) | Rejected(error: WorkerError)

  const GetLangIsoPath := "/get-lang-iso"
  const FetchPreviewPath := "/fetch-preview"
  const DispatchedPaths: set<string> := {GetLangIsoPath, FetchPreviewPath}
  const NotFoundText := "Path not found in the worker."

  /** The headers every non-`OPTIONS` answer starts from. */
  const BaseHeaders: HeaderMap := map[AccessControlAllowOrigin := AllowOrigin, ContentType := ApplicationJson]

  function NotFound(headers: HeaderMap): Response {
    Response(404, NotFoundText, headers, NoBody)
  }

  /** A controller's promise returned as is: it resolves to a response or rejects. */
  function Unawaited(r: Result<Response>): Outcome {
    match r
    case Ok(response) => Responded(response)
    case Err(e) => Rejected(e)
  }

  function RouteRequest(request: Request, world: World): (o: Outcome)
    ensures request.httpMethod != "OPTIONS" && request.path == GetLangIsoPath &&
            request.params.Some? && world.langIsoReply.Replied? && IsOk(world.langIsoReply.status) ==>
              o == Responded(Respond(LangIsoJson(world.langIsoReply.payload), BaseHeaders))
    ensures request.httpMethod != "OPTIONS" && request.path == FetchPreviewPath && FetchPreview(request.params, world).Ok? ==>
              o.Responded? && o.response.status == 200 && o.response.body == Bytes(FetchPreview(request.params, world).value)
    ensures o.Rejected? ==> request.httpMethod != "OPTIONS" && request.path in DispatchedPaths && WellFormed(o.error)
    ensures request.httpMethod != "OPTIONS" && o.Responded? ==>
              AccessControlAllowOrigin in o.response.headers &&
              o.response.headers[AccessControlAllowOrigin] == AllowOrigin
  {
    if request.httpMethod == "OPTIONS" then Responded(OptionsController(request.headers))
    else
      var headers := BaseHeaders;
      if request.path == GetLangIsoPath then
        Unawaited(
          match LangIso(request.params, world)
          case Ok(langIso) => Ok(Respond(LangIsoJson(langIso), headers))
          case Err(e) => Err(e))
      else if request.path == FetchPreviewPath then
        Unawaited(FetchPreviewController(request.params, headers, world))
      else Responded(NotFound(headers))
  }

  /** `OPTIONS` is answered by the options controller on every path, before any path is looked at. */
  lemma RouterOptionsFirst(request: Request, world: World)
    requires request.httpMethod == "OPTIONS"
    ensures RouteRequest(request, world) == Responded(OptionsController(request.headers))
  {
  }

  /**
   * The 404 answer is given exactly to the non-`OPTIONS` requests on a path
   * other than the two dispatched ones (`/fetch-preview-html`,
   * `/fetch-preview-docx` and `/fetch-project-comments` included).
   */
  lemma RouterNotFoundIff(request: Request, world: World)
    ensures RouteRequest(request, world) == Responded(NotFound(BaseHeaders)) <==>
              request.httpMethod != "OPTIONS" && request.path !in DispatchedPaths
  {
  }

  /** A failing controller makes the request reject with the controller's own error, unconverted. */
  lemma RouterLeavesFailuresUnconverted(request: Request, world: World)
    requires request.httpMethod != "OPTIONS"
    ensures request.path == FetchPreviewPath && FetchPreview(request.params, world).Err? ==>
              RouteRequest(request, world) == Rejected(FetchPreview(request.params, world).error)
    ensures request.path == GetLangIsoPath && LangIso(request.params, world).Err? ==>
              RouteRequest(request, world) == Rejected(LangIso(request.params, world).error)
  {
  }

  /**
   * A served preview is answered with the extracted file's bytes; it keeps
   * the allowed origin, and its Content-type is `text/html` for HTML and the
   * empty string for anything else.
   */
  lemma RouterPreviewContentType(request: Request, world: World)
    requires request.httpMethod != "OPTIONS" && request.path == FetchPreviewPath
    requires FetchPreview(request.params, world).Ok?
    ensures var o := RouteRequest(request, world);
            && o.Responded? && o.response.status == 200
            && o.response.body == Bytes(FetchPreview(request.params, world).value)
            && o.response.headers[AccessControlAllowOrigin] == AllowOrigin
            && o.response.headers[ContentType] ==
                 (if request.params.value.fileformat == Some("html") then TextHtml else "")
  {
  }
}

=== FILE: upstream.dfy ===
/**
 * How every call to the translation-management API turns its reply into a
 * value or an error: a transport failure, a non-2xx status, a body that is
 * not JSON, or a payload. The request itself (URL, token header, JSON body)
 * is not modelled; the reply is an input.
 */
module Upstream {
  import opened Errors

  /**
   * What `fetch` gave back: it threw; it produced a status and a body that
   * `response.json()` rejects; or it produced a status and a decoded payload.
   */
  datatype Reply<+P> = Unreachable | Undecodable(status: int) | Replied(status: int, payload: P)

  /** `response.ok`: a status in the 2xx range. */
  predicate IsOk(status: int) {
    200 <= status <= 299
  }

  /**
   * The status is looked at before the body: a non-2xx reply is classified
   * by `throwAnError` whatever its body, and only a 2xx reply's body is
   * decoded, its rejection surfacing as an unclassified error.
   */
  function Classify<P>(reply: Reply<P>): (r: Result<P>)
    ensures r.Ok? <==> reply.Replied? && IsOk(reply.status)
    ensures r.Ok? ==> r.value == reply.payload
    ensures reply.Unreachable? ==> r == Err(CantReachExternalApi)
    ensures !reply.Unreachable? && !IsOk(reply.status) ==> r == Err(ThrowAnError(reply.status))
    ensures reply.Undecodable? && IsOk(reply.status) ==> r == Err(Unclassified)
    ensures r.Err? ==> WellFormed(r.error)
  {
    match reply
    case Unreachable => Err(CantReachExternalApi)
    case Undecodable(status) =>
      if IsOk(status) then Err(Unclassified) else Err(ThrowAnError(status))
    case Replied(status, payload) =>
      if IsOk(status) then Ok(payload) else Err(ThrowAnError(status))
  }
}
